=== FILE: README.md ===
# allyourbase: a Dafny model of the base-address estimator

`allyourbase.py` guesses the address a raw binary blob was loaded at. It
collects two sets from the blob:

- the offsets of NUL-terminated text strings;
- every aligned pointer-width window, read as an unsigned integer.

If the blob was loaded at base `D`, many pointers equal `string offset + D`.
The tool looks for that displacement one modulus at a time. For each odd,
pairwise-coprime modulus `p` above a lower bound, it builds a residue
histogram of the pointers and a negated residue histogram of the strings.
It circularly convolves the two, and keeps the first residue with the
highest count. The Chinese remainder theorem then combines the per-modulus
residues into one value `k` modulo `M`, the product of the moduli. Finally
`k` is read as one of three answers:

- a negative base `-(M - k)`, when `M - k` is shorter than the blob;
- a positive base `k`, when `k` fits in the pointer width;
- not found.

The model is split into these modules:

- `Wrappers`: the `Option` type, which stands for Python's error paths.
- `Arith`: divisibility, Euclid's `Gcd`, the extended Euclid algorithm and
  the coprimality facts.
- `Bytes`: bytes and `int.from_bytes`.
- `PointerScanner`: `get_pointed_addresses`.
- `StringLocator`: `get_string_addresses`. The regular expression is
  modelled as a deterministic scanner, and the scanner is proved to agree
  with the pattern.
- `ModulusSet`: `find_coprime_numbers`.
- `Correlation`: the histograms, the circular convolution and the argmax
  for one modulus.
- `Crt`: `pow(c, -1, p)` and the Chinese remainder combination.
- `Reconstruct`: `find_max_overlap`, the offset classification and the
  whole main-block pipeline.

Python integers are unbounded, and so are Dafny's `int` and `nat`, so there
is no wrap-around to model. Python's `%` and Dafny's `%` agree for the
positive moduli used here. The one error path that is modelled is the
`ValueError` that `pow(c, -1, p)` raises on a cofactor with no inverse: it
is `None`. Other errors, and negative command-line numbers, are not
modelled and are listed under "## Left out". Negative numbers are excluded
by the `nat` parameter types. An alignment of 0 is excluded by
`requires align > 0`.

## Model

| member | source | states |
|---|---|---|
| `PointerScanner.GetPointedAddresses` | allyourbase.py:26-36 | The result is exactly the set of values of the aligned windows that fit in the blob. Every value is below `2**(8*length)`. A blob shorter than one pointer gives the empty set. |
| `Bytes.DecodeLE` | allyourbase.py:34 | A little-endian read of `w` is below `256**len(w)`. |
| `Bytes.DecodeBE` | allyourbase.py:34 | A big-endian read of `w` is below `256**len(w)`. |
| `Bytes.DecodeEncodeLE` | allyourbase.py:34 | Reading back the `k` little-endian bytes of any `x < 256**k` gives `x`. |
| `Bytes.EncodeDecodeLE` | allyourbase.py:34 | Every byte window is the encoding of its value, so the read loses nothing. |
| `Bytes.DecodeBEIsReversedLE` | allyourbase.py:34 | A big-endian read equals a little-endian read of the reversed bytes. |
| `StringLocator.UnitLength` | allyourbase.py:17-20 | The scanner's step finds a unit of the pattern's alternation whenever one starts at that position. It is the only unit that can start there, since the byte classes are disjoint. |
| `StringLocator.MaxRun` | allyourbase.py:17-21 | The greedy `{n,}` repetition splits into units and stops where no unit starts. |
| `StringLocator.MatchEnd` | allyourbase.py:17-22 | The match attempt at one start. A reported end lies past `s + n` and inside the blob, and the pattern matches up to it. `StringLocator.MatchEndIffPattern` proves the converse: every pattern match at that start is the one reported. |
| `StringLocator.UnitsStoppingAreMaxRun` | allyourbase.py:17-21 | Any split into units that stops where no unit starts is the maximal run, so the regex cannot backtrack to another split. |
| `StringLocator.MatchEndIffPattern` | allyourbase.py:17-22 | The scanner reports a match ending at `e+1` if and only if `(?:unit){n,}\x00` matches `b[s:e+1]`. |
| `StringLocator.ScanFrom` | allyourbase.py:23 | This is `re.finditer` discipline. Every reported start has a match. Reported matches do not overlap. A start with a match that is not reported lies inside an earlier reported match. |
| `StringLocator.GetStringAddresses` | allyourbase.py:10-23 | Every returned offset starts a match of the pattern with at least `n` units before its NUL. A blob of at most `n` bytes yields none. The offsets follow `re.finditer`: the matches do not overlap, and an unreported match start lies inside an earlier reported match. |
| `ModulusSet.FindCoprimeNumbers` | allyourbase.py:39-56 | The list starts at the first odd number above `n`. It is odd, strictly increasing and pairwise coprime. Every odd number it skipped shares a factor with the product of the members before it. The product exceeds `m`, and the product without the last member does not. |
| `ModulusSet.GreedySkipped` | allyourbase.py:51-55 | An odd number strictly between two consecutive members shares a factor with the product of the members before it, which is why the loop passed it over. |
| `Correlation.NegSlot` | allyourbase.py:72-74 | Python's `hist[-(x % p)]` lands in slot `(-x) mod p`, inside the array. |
| `Correlation.BuildHistogram` | allyourbase.py:68-74 | Each slot holds the number of set members in that residue class. The counts add up to the size of the set. |
| `Correlation.CircularConvolution` | allyourbase.py:76 | The exact circular convolution that `ifft(fft(a) * fft(b)).real` approximates, with one slot per residue. `Correlation.ConvolutionCountsPairs` proves what each slot means: slot `k` counts the (pointer, string) pairs at difference `k`. |
| `Correlation.ConvolutionCountsPairs` | allyourbase.py:76 | Slot `k` of the convolution of the pointer histogram with the reversed string histogram is the number of (pointer, string) pairs whose difference is `k` mod `p`. |
| `Correlation.TrueBaseCollectsEveryString` | allyourbase.py:76 | If every string at `y` has a pointer at `y + D`, then residue `D mod p` scores at least one pair per string. |
| `Correlation.FirstArgmax` | allyourbase.py:77 | This is `numpy.argmax`. It returns an index of the maximum, and every earlier index holds strictly less. |
| `Correlation.LocalOffset` | allyourbase.py:67-78 | The offset for one modulus is the first residue with the most (pointer, string) pairs at that difference. |
| `Arith.Gcd` | allyourbase.py:52 | Euclid's algorithm, the value `math.gcd` returns, and the accept test `gcd(i, product) == 1` of the modulus builder. It is zero only for `gcd(0, 0)`. Its meaning is given by three lemmas. `Arith.GcdDivides` shows it is a common divisor. `Arith.GcdGreatest` shows every common divisor divides it. `Arith.CoprimeIff` shows that a gcd of 1 means no common divisor other than 1. |
| `Arith.ExtGcd` | allyourbase.py:85 | Returns the gcd together with Bezout coefficients for it. |
| `Crt.ModInverse` | allyourbase.py:85 | `pow(c, -1, p)` succeeds exactly when `c` and `p` are coprime. Its result lies in `[0, p)` and inverts `c` mod `p`. |
| `Crt.NoInverse` | allyourbase.py:85 | When `c` and `p` share a factor, no inverse exists, so the error is the only possible outcome. |
| `Crt.Combine` | allyourbase.py:84-86 | The sum-mod-`M` fails, as `pow` does, exactly when some cofactor `M // p` is not coprime to `p`. A result lies in `[0, M)`. With pairwise-coprime moduli it always succeeds and has every given residue: the Chinese remainder theorem. |
| `Crt.CombineUnique` | allyourbase.py:84-86 | Only one value in `[0, M)` has a given set of residues. |
| `Reconstruct.FindMaxOverlap` | allyourbase.py:59-87 | Every offset is the best alignment for its modulus. With pairwise-coprime moduli the result exists, lies below `M` and agrees with every offset modulo its modulus. |
| `Reconstruct.Classify` | allyourbase.py:122-128 | `k < M` holds, as the `% M` in allyourbase.py:86 guarantees. The result is a negative base exactly when `M - k < len(b)`, and then its distance is `M - k`. That distance is a positive type, so a negative base never stands for address 0 ("-0x0"). Whichever base the classification reports is congruent to `k` modulo `M`. When `M > 2**(8*l) + len(b)`, every reported base lies in the plausible window, and any base in that window congruent to `k` is exactly the base reported. So the classification finds the window's unique representative of `k`, whatever the order of its two tests. |
| `Reconstruct.RepresentativeIsConsistent` | allyourbase.py:84-87 | A value congruent to `k` modulo `M` agrees with every per-modulus offset. |
| `Reconstruct.ConsistentIsRepresentative` | allyourbase.py:84-87 | A value that agrees with every per-modulus offset is congruent to `k` modulo `M`. |
| `Reconstruct.EstimateMeaning` | allyourbase.py:118-128 | A reported base lies in the window and agrees with every per-modulus offset. "Not found" happens exactly when no base in the window agrees with all of them. Any base in the window that agrees with all of them is the one reported. |
| `Reconstruct.EstimateBase` | allyourbase.py:113-128 | The whole main block. The strings are the finditer start set of the blob. The pointers are exactly the values of the aligned windows. The moduli are the greedy list above the lower bound, and its product first exceeds `2**(8*l) + len(b)` at the last member. Each offset is the best alignment of pointers against strings. The estimate is the unique plausible base consistent with every alignment, or "not found" exactly when there is none. A reported estimate is a negative base exactly when its address is below 0. So the signed address also fixes the constructor, and every field is determined by the blob and the parameters. |

## Left out

- The command line (allyourbase.py:90-111) is left out. The pipeline takes
  its result directly as parameters: `n`, the pointer width, endianness,
  alignment and the modulus lower bound.
- The slack factor `f` is a float, and the lower bound is
  `int(len(b) * f)` (allyourbase.py:111, :119). The model takes the lower
  bound as a `nat` instead of computing it.
- File reading (allyourbase.py:113-114) is left out. The blob is a
  parameter.
- The progress and result printing (allyourbase.py:66, :79-81, :116,
  :124-128) is left out. The printed answer is the `Estimate` value.
- The FFT is left out. `numpy.fft` computes the circular convolution in
  float64 (allyourbase.py:76). The model computes the exact integer sum it
  approximates. Rounding noise that could change `argmax` between near-equal
  counts is not modelled.
- The histograms are float64 arrays in allyourbase.py (:68-69).
  The model uses exact `nat` counts, which the float values equal for any
  blob below `2**53` entries.
- The Python regex engine itself is left out. The pattern is stated as a
  predicate, and a deterministic scanner is proved to agree with it.
- `PointerScanner.GetPointedAddresses`: requires `align > 0`. With `align`
  of 0, Python's `range` raises `ValueError` (allyourbase.py:32). Without
  `-f`, `-a 0` already fails earlier, in `16.0 / args.a`
  (allyourbase.py:111), with `ZeroDivisionError`. Neither error is
  modelled.
- `Reconstruct.EstimateBase`: requires `align > 0`, for the same reason.
- Negative `-a`, `-l` and `-n` are accepted by argparse
  (allyourbase.py:95-100). They are not modelled, because the parameters
  are `nat`. With a negative `-n`, the pattern's quantifier becomes the
  text `{-1,}`, which `re` matches literally.
- A negative `-f` gives a negative lower bound for the moduli, which can make
  the first modulus negative. The lower bound is a `nat`, so this
  is not modelled.
- Exact recovery of the true base is not proved. The proof gives a lower
  bound instead: the true base's residue collects at least one pair per
  string (`Correlation.TrueBaseCollectsEveryString`). The true residue can
  tie with, or lose to, residues that collect chance pairs, and then the
  first argmax may pick another residue.

=== FILE: arith.dfy ===
/**
  Elementary number theory shared by the modulus builder and the Chinese
  remainder reconstruction: divisibility, Euclid's gcd, the extended Euclidean
  algorithm (Bezout coefficients) and the facts about coprimality that follow
  from it. All `%` and `/` here are Dafny's Euclidean operators; every divisor
  is positive, where they agree with Python's floored operators.
 */
module Arith {

  /** `d` is a positive divisor of `a`. */
  predicate Divides(d: int, a: int) {
    d > 0 && a % d == 0
  }

  /** Euclid's algorithm, the function Python's `math.gcd` computes on
      naturals. It is zero only for `gcd(0, 0)`; `GcdDivides` shows it is a
      common divisor and `GcdGreatest` that every common divisor divides it. */
  function Gcd(a: nat, b: nat): (g: nat)
    ensures g == 0 <==> a == 0 && b == 0
    decreases b
  {
    if b == 0 then a else Gcd(b, a % b)
  }

  predicate Coprime(a: nat, b: nat) {
    Gcd(a, b) == 1
  }

  // ---------------------------------------------------------------------------
  // Euclidean division

  /** Quotient and remainder are unique: any decomposition with a remainder in
      range is the one `/` and `%` produce. */
  lemma DivModUnique(x: int, p: int, q: int, r: int)
    requires p > 0 && 0 <= r < p
    requires x == p * q + r
    ensures x / p == q && x % p == r
  {
    var q', r' := x / p, x % p;
    assert p * q' + r' == p * q + r;
    assert p * (q - q') == r' - r;
    MulSmallIsZero(p, q - q');
  }

  /** The only multiple of `p` strictly between `-p` and `p` is zero. */
  lemma MulSmallIsZero(p: int, k: int)
    requires p > 0 && -p < p * k < p
    ensures k == 0
  {
  }

  lemma MultipleMod(p: int, q: int)
    requires p > 0
    ensures (p * q) % p == 0 && (p * q) / p == q
  {
    DivModUnique(p * q, p, q, 0);
  }

  lemma DividesIsMultiple(d: int, a: int)
    requires Divides(d, a)
    ensures a == d * (a / d)
  {
  }

  lemma DividesMul(d: int, a: int, c: int)
    requires Divides(d, a)
    ensures Divides(d, a * c)
  {
    var q := a / d;
    assert a * c == d * (q * c) by {
      assert a == d * q;
    }
    MultipleMod(d, q * c);
  }

  lemma DividesLinear(d: int, a: int, b: int, c: int, e: int)
    requires Divides(d, a) && Divides(d, b)
    ensures Divides(d, a * c + b * e)
  {
    var qa, qb := a / d, b / d;
    assert a == d * qa && b == d * qb;
    assert a * c + b * e == d * (qa * c + qb * e) by {
      assert a * c == d * (qa * c);
      assert b * e == d * (qb * e);
    }
    MultipleMod(d, qa * c + qb * e);
  }

  lemma DividesTrans(d: int, e: int, a: int)
    requires Divides(d, e) && Divides(e, a)
    ensures Divides(d, a)
  {
    DividesIsMultiple(e, a);
    DividesMul(d, e, a / e);
  }

  lemma DividesOne(d: int)
    requires Divides(d, 1)
    ensures d == 1
  {
  }

  /** Two numbers agree modulo `p` exactly when `p` divides their difference. */
  lemma ModEqIffDivides(x: int, y: int, p: int)
    requires p > 0
    ensures x % p == y % p <==> Divides(p, x - y)
  {
    var qx, rx := x / p, x % p;
    var qy, ry := y / p, y % p;
    assert x - y == p * (qx - qy) + (rx - ry);
    if rx == ry {
      MultipleMod(p, qx - qy);
    } else if Divides(p, x - y) {
      var qd := (x - y) / p;
      assert x - y == p * qd;
      if rx > ry {
        DivModUnique(x - y, p, qx - qy, rx - ry);
        assert false;
      } else {
        // y - x leaves the remainder ry - rx, yet p divides it
        assert y - x == p * (qy - qx) + (ry - rx);
        DivModUnique(y - x, p, qy - qx, ry - rx);
        assert y - x == p * (-qd);
        MultipleMod(p, -qd);
        assert false;
      }
    }
  }

  /** Reduction modulo a multiple of `p` preserves the residue modulo `p`. */
  lemma ModOfMod(x: int, m: int, p: int)
    requires m > 0 && Divides(p, m)
    ensures (x % m) % p == x % p
  {
    DividesIsMultiple(m, m);
    assert x - x % m == m * (x / m);
    DividesMul(p, m, x / m);
    ModEqIffDivides(x % m, x, p);
    assert x % m - x == -(m * (x / m));
    DividesMul(p, m * (x / m), -1);
  }

  lemma ModAdd(x: int, y: int, p: int)
    requires p > 0
    ensures (x + y) % p == (x % p + y) % p
  {
    assert x - x % p == p * (x / p);
    MultipleMod(p, x / p);
    ModEqIffDivides(x + y, x % p + y, p);
  }

  lemma ModMulLeft(x: int, y: int, p: int)
    requires p > 0
    ensures (x * y) % p == ((x % p) * y) % p
  {
    assert x * y - (x % p) * y == (x - x % p) * y;
    assert x - x % p == p * (x / p);
    MultipleMod(p, x / p);
    DividesMul(p, x - x % p, y);
    ModEqIffDivides(x * y, (x % p) * y, p);
  }

  // ---------------------------------------------------------------------------
  // Euclid's algorithm

  /** The gcd divides both arguments. */
  lemma {:induction false} GcdDivides(a: nat, b: nat)
    requires a > 0 || b > 0
    ensures Divides(Gcd(a, b), a) && Divides(Gcd(a, b), b)
    decreases b
  {
    if b == 0 {
      MultipleMod(a, 1);
    } else {
      GcdDivides(b, a % b);
      var g := Gcd(b, a % b);
      assert a == b * (a / b) + a % b;
      DividesLinear(g, b, a % b, a / b, 1);
    }
  }

  /** Every common divisor divides the gcd. */
  lemma {:induction false} GcdGreatest(a: nat, b: nat, d: int)
    requires Divides(d, a) && Divides(d, b)
    ensures Divides(d, Gcd(a, b))
    decreases b
  {
    if b != 0 {
      assert a % b == a + b * (-(a / b));
      DividesLinear(d, a, b, 1, -(a / b));
      GcdGreatest(b, a % b, d);
    }
  }

  /** The extended Euclidean algorithm: the gcd together with Bezout
      coefficients `u`, `v` such that `u*a + v*b == gcd(a, b)`. */
  function ExtGcd(a: nat, b: nat): (r: (nat, int, int))
    ensures r.0 == Gcd(a, b)
    ensures r.1 * a + r.2 * b == Gcd(a, b)
    decreases b
  {
    if b == 0 then (a, 1, 0)
    else
      var rec := ExtGcd(b, a % b);
      var q := a / b;
      assert rec.2 * a + (rec.1 - rec.2 * q) * b == rec.1 * b + rec.2 * (a % b) by {
        assert a % b == a - b * q;
        assert rec.2 * (a - b * q) == rec.2 * a - rec.2 * (b * q);
        assert (rec.1 - rec.2 * q) * b == rec.1 * b - rec.2 * (b * q);
      }
      (rec.0, rec.2, rec.1 - rec.2 * q)
  }

  /** Coprimality means no common divisor but 1. */
  lemma CoprimeIff(a: nat, b: nat)
    requires a > 0 || b > 0
    ensures Coprime(a, b) <==> forall d :: Divides(d, a) && Divides(d, b) ==> d == 1
  {
    GcdDivides(a, b);
    forall d | Divides(d, a) && Divides(d, b)
      ensures Divides(d, Gcd(a, b))
    {
      GcdGreatest(a, b, d);
    }
    if Coprime(a, b) {
      forall d | Divides(d, a) && Divides(d, b)
        ensures d == 1
      {
        DividesOne(d);
      }
    }
  }

  /** A number coprime to `m` is coprime to every divisor of `m`. */
  lemma CoprimeDivisor(i: nat, m: nat, q: nat)
    requires Coprime(i, m) && Divides(q, m)
    ensures Coprime(i, q)
  {
    GcdDivides(i, q);
    var g := Gcd(i, q);
    DividesTrans(g, q, m);
    GcdGreatest(i, m, g);
    DividesOne(g);
  }

  /** Coprimality is symmetric. */
  lemma CoprimeSym(a: nat, b: nat)
    requires Coprime(a, b)
    ensures Coprime(b, a)
  {
    GcdDivides(a, b);
    GcdDivides(b, a);
    GcdGreatest(a, b, Gcd(b, a));
    DividesOne(Gcd(b, a));
  }

  /** A number coprime to both factors is coprime to their product. */
  lemma CoprimeMul(a: nat, b: nat, m: nat)
    requires Coprime(a, m) && Coprime(b, m)
    ensures Coprime(a * b, m)
  {
    var e1 := ExtGcd(a, m);
    var e2 := ExtGcd(b, m);
    var ab := a * b;
    var c, e := BezoutProduct(a, b, m, e1.1, e1.2, e2.1, e2.2);
    if m == 0 {
      assert a == 1 && b == 1;
    }
    GcdDivides(ab, m);
    var g := Gcd(ab, m);
    DividesLinear(g, ab, m, c, e);
    DividesOne(g);
  }

  /** Multiplying two Bezout identities for `a` and `b` against `m` gives one
      for `a*b`. */
  lemma BezoutProduct(a: int, b: int, m: int, u: int, v: int, u': int, v': int)
      returns (c: int, e: int)
    requires u * a + v * m == 1 && u' * b + v' * m == 1
    ensures c * (a * b) + e * m == 1
  {
    c, e := u * u', v + v' - v * v' * m;
    var x, y := u * a, u' * b;
    assert x == 1 - v * m && y == 1 - v' * m;
    assert x * y == (1 - v * m) * (1 - v' * m);
    assert x * y == (u * u') * (a * b);
    assert (1 - v * m) * (1 - v' * m) == 1 - (v + v' - v * v' * m) * m;
  }

  /** Two coprime divisors of `x` divide it jointly. */
  lemma CoprimeDividesProduct(a: nat, b: nat, x: int)
    requires Coprime(a, b) && Divides(a, x) && Divides(b, x)
    ensures Divides(a * b, x)
  {
    var e := ExtGcd(a, b);
    DividesIsMultiple(a, x);
    DividesIsMultiple(b, x);
    var s, t := x / a, x / b;
    BezoutCombine(a, b, x, s, t, e.1, e.2);
    MultipleMod(a * b, e.1 * t + e.2 * s);
  }

  /** From `u*a + v*b == 1` and `x == a*s == b*t`, `x` is a multiple of `a*b`. */
  lemma BezoutCombine(a: int, b: int, x: int, s: int, t: int, u: int, v: int)
    requires u * a + v * b == 1 && x == a * s && x == b * t
    ensures x == (a * b) * (u * t + v * s)
  {
  }
}

=== FILE: correlation.dfy ===
/**
  The correlation engine for one modulus `p`: residue histograms of the
  pointer targets and of the (negated) string offsets, their circular
  convolution, and the first index of its maximum.

  allyourbase.py convolves with a floating-point FFT; here the convolution is the
  exact integer sum it approximates, and its meaning is proved: slot `k`
  counts the pointer/string pairs whose difference is `k` modulo `p`.
 */
module Correlation {
  import opened Arith

  /** Python's `hist[-(x % p)]`: a negative index counts back from the end,
      and `-0` is slot 0. The slot is the residue of `-x`. */
  function NegSlot(x: nat, p: nat): (r: nat)
    requires p > 0
    ensures r < p
    ensures r == (-(x as int)) % p
  {
    var m := x % p;
    if m == 0 then
      DivModUnique(-(x as int), p, -(x / p), 0);
      0
    else
      DivModUnique(-(x as int), p, -(x / p) - 1, p - m);
      p - m
  }

  /** The slot a value lands in: its residue, or the residue of its negation
      for the reversed (string offset) histogram. */
  function Slot(x: nat, p: nat, reversed: bool): nat
    requires p > 0
  {
    if reversed then NegSlot(x, p) else x % p
  }

  /** How many members of `S` land in slot `r`. */
  function CountIn(S: set<nat>, p: nat, reversed: bool, r: nat): nat
    requires p > 0
  {
    |set x | x in S && Slot(x, p, reversed) == r|
  }

  /** The histogram as counts: slot `r` holds `CountIn(S, p, reversed, r)`. */
  function Histogram(S: set<nat>, p: nat, reversed: bool): (h: seq<nat>)
    requires p > 0
    ensures |h| == p
  {
    seq(p, r requires 0 <= r < p => CountIn(S, p, reversed, r))
  }

  function Sum(s: seq<int>): int
  {
    if |s| == 0 then 0 else Sum(s[..|s| - 1]) + s[|s| - 1]
  }

  // ---------------------------------------------------------------------------
  // Building a histogram

  lemma {:induction false} SumUpdate(h: seq<int>, i: nat, v: int)
    requires i < |h|
    ensures Sum(h[i := v]) == Sum(h) - h[i] + v
  {
    var n := |h|;
    if i == n - 1 {
      assert h[i := v][..n - 1] == h[..n - 1];
    } else {
      assert h[i := v][..n - 1] == h[..n - 1][i := v];
      SumUpdate(h[..n - 1], i, v);
    }
  }

  lemma {:induction false} SumZeros(n: nat)
    ensures Sum(seq(n, _ => 0)) == 0
  {
    if n > 0 {
      assert seq(n, _ => 0)[..n - 1] == seq(n - 1, _ => 0);
      SumZeros(n - 1);
    }
  }

  /** Adding a new member raises exactly its own slot's count by one. */
  lemma CountAdd(D: set<nat>, x: nat, p: nat, reversed: bool, r: nat)
    requires p > 0 && x !in D
    ensures CountIn(D + {x}, p, reversed, r) ==
            CountIn(D, p, reversed, r) + (if Slot(x, p, reversed) == r then 1 else 0)
  {
    var before := set y | y in D && Slot(y, p, reversed) == r;
    var after := set y | y in D + {x} && Slot(y, p, reversed) == r;
    if Slot(x, p, reversed) == r {
      assert after == before + {x};
    } else {
      assert after == before;
    }
  }

  /** `h` holds the per-slot counts of `D`, and its entries add up to `|D|`. */
  predicate Tally(h: seq<nat>, D: set<nat>, p: nat, reversed: bool)
    requires p > 0
  {
    && |h| == p
    && (forall r :: 0 <= r < p ==> h[r] == CountIn(D, p, reversed, r))
    && Sum(h) == |D|
  }

  /** All zeros count the empty set. */
  lemma TallyEmpty(p: nat, reversed: bool)
    requires p > 0
    ensures Tally(seq(p, _ => 0), {}, p, reversed)
  {
    SumZeros(p);
  }

  /** One step of the histogram loop: moving `x` from the unvisited members to
      the visited ones while bumping its slot keeps the counts exact. */
  lemma CountStep(S: set<nat>, rest: set<nat>, x: nat, h: seq<nat>, p: nat, reversed: bool)
    requires p > 0 && x in rest && rest <= S && Tally(h, S - rest, p, reversed)
    ensures var slot := Slot(x, p, reversed);
      Tally(h[slot := h[slot] + 1], S - (rest - {x}), p, reversed)
  {
    var slot := Slot(x, p, reversed);
    var done := S - rest;
    assert S - (rest - {x}) == done + {x};
    forall r | 0 <= r < p
      ensures h[slot := h[slot] + 1][r] == CountIn(done + {x}, p, reversed, r)
    {
      CountAdd(done, x, p, reversed, r);
    }
    SumUpdate(h, slot, h[slot] + 1);
  }

  /** The loop of `find_max_overlap`: start from zeros and add one to the slot of each
      member, in whatever order the set yields them. */
  method BuildHistogram(S: set<nat>, p: nat, reversed: bool) returns (h: seq<nat>)
    requires p > 0
    ensures |h| == p
    ensures forall r :: 0 <= r < p ==> h[r] == CountIn(S, p, reversed, r)
    ensures Sum(h) == |S|
  {
    h := seq(p, _ => 0);
    TallyEmpty(p, reversed);
    var rest := S;
    assert S - rest == {};
    while rest != {}
      invariant rest <= S
      invariant Tally(h, S - rest, p, reversed)
      decreases |rest|
    {
      var x :| x in rest;
      var slot := Slot(x, p, reversed);
      CountStep(S, rest, x, h, p, reversed);
      h := h[slot := h[slot] + 1];
      rest := rest - {x};
    }
    assert S - rest == S;
  }

  // ---------------------------------------------------------------------------
  // Circular convolution

  /** `sum(a[j] * b[(k - j) % p] for j in range(t))`. */
  function ConvPrefix(a: seq<int>, b: seq<int>, k: int, t: nat): int
    requires |a| == |b| > 0 && t <= |a|
  {
    if t == 0 then 0
    else ConvPrefix(a, b, k, t - 1) + a[t - 1] * b[(k - (t - 1)) % |a|]
  }

  /** The circular convolution `c[k] = sum(a[j] * b[(k - j) % p])`, which the
      allyourbase.py obtains as `ifft(fft(a) * fft(b)).real`. */
  function CircularConvolution(a: seq<int>, b: seq<int>): (c: seq<int>)
    requires |a| == |b| > 0
    ensures |c| == |a|
  {
    seq(|a|, k requires 0 <= k < |a| => ConvPrefix(a, b, k, |a|))
  }

  lemma {:induction false} ConvOfZero(a: seq<int>, b: seq<int>, k: int, t: nat)
    requires |a| == |b| > 0 && t <= |a|
    requires forall j :: 0 <= j < |a| ==> a[j] == 0
    ensures ConvPrefix(a, b, k, t) == 0
  {
    if t > 0 {
      ConvOfZero(a, b, k, t - 1);
    }
  }

  /** The convolution is linear in its first argument: one more count in slot
      `j0` adds the matching entry of `b`. */
  lemma {:induction false} ConvBump(a: seq<int>, b: seq<int>, k: int, t: nat, j0: nat)
    requires |a| == |b| > 0 && t <= |a| && j0 < |a|
    ensures ConvPrefix(a[j0 := a[j0] + 1], b, k, t) ==
            ConvPrefix(a, b, k, t) + (if j0 < t then b[(k - j0) % |a|] else 0)
  {
    if t > 0 {
      ConvBump(a, b, k, t - 1, j0);
    }
  }

  // ---------------------------------------------------------------------------
  // What a convolution slot counts

  /** Pointer/string pairs whose difference is `k` modulo `p`. */
  ghost function PairsAt(A: set<nat>, B: set<nat>, p: nat, k: nat): set<(nat, nat)>
    requires p > 0
  {
    set x, y | x in A && y in B && (x - y) % p == k :: (x, y)
  }

  /** The pairs of `PairsAt` whose pointer is `x`. */
  ghost function Row(x: nat, B: set<nat>, p: nat, k: nat): set<(nat, nat)>
    requires p > 0
  {
    set y | y in B && (x - y) % p == k :: (x, y)
  }

  /** Pairing every member of `Y` with a fixed `x`. */
  ghost function PairUp(x: nat, Y: set<nat>): set<(nat, nat)>
  {
    set y | y in Y :: (x, y)
  }

  lemma {:induction false} PairUpCard(x: nat, Y: set<nat>)
    ensures |PairUp(x, Y)| == |Y|
    decreases |Y|
  {
    if Y != {} {
      var y0 :| y0 in Y;
      var Y' := Y - {y0};
      PairUpCard(x, Y');
      assert PairUp(x, Y) == PairUp(x, Y') + {(x, y0)};
    }
  }

  /** The reversed-histogram slot `(k - x % p) % p` holds exactly the strings
      `y` with `x - y == k` modulo `p`. */
  lemma NegSlotMatches(x: nat, y: nat, p: nat, k: nat)
    requires p > 0 && k < p
    ensures NegSlot(y, p) == (k - x % p) % p <==> (x - y) % p == k
  {
    var q := x / p;
    var d := x - y - k;
    var lhs := -(y as int);
    var rhs := k - x % p;
    assert lhs - rhs == d - p * q;
    ModEqIffDivides(lhs, rhs, p);
    ModEqIffDivides(x - y, k, p);
    DivModUnique(k, p, 0, k);
    ShiftByMultiple(d, p, q);
  }

  /** Subtracting a multiple of `p` does not change divisibility by `p`. */
  lemma ShiftByMultiple(d: int, p: int, q: int)
    requires p > 0
    ensures Divides(p, d) <==> Divides(p, d - p * q)
  {
    var qd, rd := d / p, d % p;
    assert d - p * q == p * (qd - q) + rd;
    DivModUnique(d - p * q, p, qd - q, rd);
  }

  lemma RowCount(x: nat, B: set<nat>, p: nat, k: nat)
    requires p > 0 && k < p
    ensures Histogram(B, p, true)[(k - x % p) % p] == |Row(x, B, p, k)|
  {
    var matching := set y | y in B && (x - y) % p == k;
    var slotted := set y | y in B && Slot(y, p, true) == (k - x % p) % p;
    forall y | y in B
      ensures y in slotted <==> y in matching
    {
      NegSlotMatches(x, y, p, k);
    }
    assert slotted == matching;
    assert Row(x, B, p, k) == PairUp(x, matching);
    PairUpCard(x, matching);
  }

  lemma HistogramAdd(D: set<nat>, x: nat, p: nat, reversed: bool)
    requires p > 0 && x !in D
    ensures Histogram(D + {x}, p, reversed) ==
            Histogram(D, p, reversed)[Slot(x, p, reversed) := Histogram(D, p, reversed)[Slot(x, p, reversed)] + 1]
  {
    forall r | 0 <= r < p
      ensures Histogram(D + {x}, p, reversed)[r] ==
              Histogram(D, p, reversed)[Slot(x, p, reversed) := Histogram(D, p, reversed)[Slot(x, p, reversed)] + 1][r]
    {
      CountAdd(D, x, p, reversed, r);
    }
  }

  lemma PairsSplit(A: set<nat>, x: nat, B: set<nat>, p: nat, k: nat)
    requires p > 0 && x !in A
    ensures |PairsAt(A + {x}, B, p, k)| == |PairsAt(A, B, p, k)| + |Row(x, B, p, k)|
  {
    assert PairsAt(A + {x}, B, p, k) == PairsAt(A, B, p, k) + Row(x, B, p, k);
    assert PairsAt(A, B, p, k) !! Row(x, B, p, k);
  }

  /** Slot `k` of the convolution of the pointer histogram with the reversed
      string histogram is the number of (pointer, string) pairs whose
      difference is `k` modulo `p`: the number of strings a base address
      congruent to `k` would make pointed-to. */
  lemma {:induction false} ConvolutionCountsPairs(A: set<nat>, B: set<nat>, p: nat, k: nat)
    requires p > 0 && k < p
    ensures CircularConvolution(Histogram(A, p, false), Histogram(B, p, true))[k] ==
            |PairsAt(A, B, p, k)|
    decreases |A|
  {
    var hb := Histogram(B, p, true);
    if A == {} {
      ConvOfZero(Histogram(A, p, false), hb, k, p);
      assert PairsAt(A, B, p, k) == {};
    } else {
      var x :| x in A;
      var A' := A - {x};
      assert A == A' + {x};
      ConvolutionCountsPairs(A', B, p, k);
      HistogramAdd(A', x, p, false);
      ConvBump(Histogram(A', p, false), hb, k, p, x % p);
      RowCount(x, B, p, k);
      PairsSplit(A', x, B, p, k);
    }
  }

  /** Each string paired with the pointer a displacement `D` away. */
  ghost function Displaced(B: set<nat>, D: int): set<(nat, nat)>
  {
    set y | y in B && y + D >= 0 :: ((y + D) as nat, y)
  }

  lemma {:induction false} DisplacedCard(B: set<nat>, D: int)
    requires forall y :: y in B ==> y + D >= 0
    ensures |Displaced(B, D)| == |B|
    decreases |B|
  {
    if B != {} {
      var y0 :| y0 in B;
      var B' := B - {y0};
      DisplacedCard(B', D);
      var z0: (nat, nat) := ((y0 + D) as nat, y0);
      forall z | z in Displaced(B, D)
        ensures z in Displaced(B', D) + {z0}
      {
        var y :| y in B && y + D >= 0 && z == ((y + D) as nat, y);
        if y != y0 {
          assert y in B';
        }
      }
      assert Displaced(B, D) == Displaced(B', D) + {z0};
      assert z0 !in Displaced(B', D);
    }
  }

  /** If every string offset `y` has a pointer to it at `y + D` (a blob loaded
      at base `D`), the residue of `D` collects at least one pair per string,
      so the winning residue scores at least that much. */
  lemma TrueBaseCollectsEveryString(A: set<nat>, B: set<nat>, p: nat, D: int)
    requires p > 0
    requires forall y :: y in B ==> y + D >= 0 && y + D in A
    ensures |PairsAt(A, B, p, D % p)| >= |B|
  {
    var pairs := PairsAt(A, B, p, D % p);
    forall y | y in B
      ensures ((y + D) as nat, y) in pairs
    {
      var x: nat := y + D;
      assert x - y == D;
    }
    assert Displaced(B, D) <= pairs;
    DisplacedCard(B, D);
    SubsetCard(Displaced(B, D), pairs);
  }

  lemma SubsetCard<T>(small: set<T>, big: set<T>)
    requires small <= big
    ensures |small| <= |big|
  {
    assert big == small + (big - small);
  }

  // ---------------------------------------------------------------------------
  // Choosing the alignment

  /** `numpy.argmax`: the first index holding the maximum. */
  method FirstArgmax(c: seq<int>) returns (k: nat)
    requires |c| > 0
    ensures k < |c|
    ensures forall j :: 0 <= j < |c| ==> c[j] <= c[k]
    ensures forall j :: 0 <= j < k ==> c[j] < c[k]
  {
    k := 0;
    var i := 1;
    while i < |c|
      invariant 1 <= i <= |c| && k < i
      invariant forall j :: 0 <= j < i ==> c[j] <= c[k]
      invariant forall j :: 0 <= j < k ==> c[j] < c[k]
    {
      if c[i] > c[k] {
        k := i;
      }
      i := i + 1;
    }
  }

  /** The best alignment modulo `p`: the first residue `k` that maximises the
      number of (pointer, string) pairs whose difference is `k` modulo `p`. */
  method LocalOffset(A: set<nat>, B: set<nat>, p: nat) returns (offset: nat)
    requires p > 0
    ensures offset < p
    ensures forall k :: 0 <= k < p ==> |PairsAt(A, B, p, k)| <= |PairsAt(A, B, p, offset)|
    ensures forall k :: 0 <= k < offset ==> |PairsAt(A, B, p, k)| < |PairsAt(A, B, p, offset)|
  {
    var a := BuildHistogram(A, p, false);
    var b := BuildHistogram(B, p, true);
    assert a == Histogram(A, p, false);
    assert b == Histogram(B, p, true);
    var corr := CircularConvolution(a, b);
    offset := FirstArgmax(corr);
    forall k | 0 <= k < p
      ensures corr[k] == |PairsAt(A, B, p, k)|
    {
      ConvolutionCountsPairs(A, B, p, k);
    }
  }
}

=== FILE: crt.dfy ===
/**
  The Chinese remainder reconstruction: per-modulus offsets combined into one
  value modulo the product of the moduli, as
  `sum(offset * (M // p) * pow(M // p, -1, p)) % M`.
 */
module Crt {
  import opened Arith
  import opened Wrappers
  import opened ModulusSet

  /** `v` is an inverse of `a` modulo `p`. */
  predicate IsInverse(a: int, v: int, p: int)
    requires p > 0
  {
    (a * v) % p == 1 % p
  }

  /** Python's `pow(a, -1, p)`: the inverse of `a` modulo `p` in `[0, p)`,
      or the error Python raises when `a` and `p` share a factor. For `p == 1`
      the inverse is 0. */
  function ModInverse(a: nat, p: nat): (r: Option<nat>)
    requires p > 0
    ensures r.Some? <==> Coprime(a, p)
    ensures r.Some? ==> r.value < p && IsInverse(a, r.value, p)
  {
    var e := ExtGcd(a, p);
    if e.0 != 1 then None
    else
      InverseFromBezout(a, p, e.1, e.2);
      Some(e.1 % p)
  }

  lemma InverseFromBezout(a: nat, p: nat, u: int, v: int)
    requires p > 0 && u * a + v * p == 1
    ensures IsInverse(a, u % p, p)
  {
    ModMulLeft(u, a, p);
    assert a * (u % p) == (u % p) * a;
    assert u * a == p * (-v) + 1;
    MultipleMod(p, -v);
    ModAdd(p * (-v), 1, p);
  }

  /** No inverse exists when `a` and `p` share a factor, so the error path is
      the only possible answer there. */
  lemma NoInverse(a: nat, p: nat, v: int)
    requires p > 0 && !Coprime(a, p)
    ensures !IsInverse(a, v, p)
  {
    if IsInverse(a, v, p) {
      GcdDivides(a, p);
      var g := Gcd(a, p);
      ModEqIffDivides(a * v, 1, p);
      DividesTrans(g, p, a * v - 1);
      DividesMul(g, a, v);
      DividesLinear(g, a * v, a * v - 1, 1, -1);
      DividesOne(g);
    }
  }

  // ---------------------------------------------------------------------------
  // The combination

  predicate Positive(ms: seq<nat>) {
    forall i :: 0 <= i < |ms| ==> ms[i] > 0
  }

  /** `M // p` for the `i`-th modulus. */
  function Cofactor(ms: seq<nat>, i: nat): nat
    requires Positive(ms) && i < |ms|
  {
    Prod(ms) / ms[i]
  }

  /** The terms `offset * (M // p) * pow(M // p, -1, p)` for positions `i..`,
      summed; the error of the first non-invertible cofactor stops the sum. */
  function TermsFrom(ms: seq<nat>, os: seq<nat>, i: nat): Option<int>
    requires Positive(ms) && |ms| == |os| && i <= |ms|
    decreases |ms| - i
  {
    if i == |ms| then Some(0)
    else
      var c := Cofactor(ms, i);
      match ModInverse(c, ms[i])
      case None => None
      case Some(inv) =>
        match TermsFrom(ms, os, i + 1)
        case None => None
        case Some(rest) => Some(os[i] * c * inv + rest)
  }

  /** The reconstruction `k = sum(...) % M`. It fails, as `pow` does, exactly
      when some cofactor `M // p` has no inverse modulo `p`; with
      pairwise-coprime moduli it succeeds, and its value is the number in
      `[0, M)` with every given residue (the Chinese remainder theorem). */
  function Combine(ms: seq<nat>, os: seq<nat>): (r: Option<nat>)
    requires Positive(ms) && |ms| == |os|
    ensures r.Some? <==> forall i :: 0 <= i < |ms| ==> Coprime(Cofactor(ms, i), ms[i])
    ensures r.Some? ==> r.value < Prod(ms)
    ensures PairwiseCoprime(ms) ==> r.Some?
    ensures PairwiseCoprime(ms) ==> forall j :: 0 <= j < |ms| ==> r.value % ms[j] == os[j] % ms[j]
  {
    ProdPositive(ms);
    TermsSomeIff(ms, os, 0);
    if PairwiseCoprime(ms) then
      TermsReduce(ms, os);
      Some(TermsFrom(ms, os, 0).value % Prod(ms))
    else
    match TermsFrom(ms, os, 0)
    case None => None
    case Some(s) => Some(s % Prod(ms))
  }

  // ---------------------------------------------------------------------------
  // Products without one factor

  /** The list without its `i`-th member. */
  function Others(ms: seq<nat>, i: nat): seq<nat>
    requires i < |ms|
  {
    ms[..i] + ms[i + 1..]
  }

  lemma {:induction false} ProdSplit(ms: seq<nat>, i: nat)
    requires i < |ms|
    ensures Prod(ms) == ms[i] * Prod(Others(ms, i))
  {
    var n := |ms|;
    var init := ms[..n - 1];
    if i == n - 1 {
      assert Others(ms, i) == init;
    } else {
      ProdSplit(init, i);
      assert Others(ms, i) == Others(init, i) + [ms[n - 1]];
      ProdAppend(Others(init, i), ms[n - 1]);
      Regroup(Prod(init), ms[i], Prod(Others(init, i)), ms[n - 1]);
    }
  }

  lemma Regroup(x: int, a: int, r: int, l: int)
    requires x == a * r
    ensures x * l == a * (r * l)
  {
  }

  lemma {:induction false} CoprimeToProd(s: seq<nat>, q: nat)
    requires forall k :: 0 <= k < |s| ==> Coprime(s[k], q)
    ensures Coprime(Prod(s), q)
  {
    if |s| == 0 {
      assert Gcd(1, q) == 1 by {
        if q != 0 {
          DivModUnique(1, q, if q == 1 then 1 else 0, if q == 1 then 0 else 1);
          assert Gcd(1, q) == Gcd(q, 1 % q);
          if q == 1 {
            assert Gcd(1, 0) == 1;
          } else {
            assert Gcd(q, 1) == Gcd(1, q % 1) == Gcd(1, 0);
          }
        }
      }
    } else {
      CoprimeToProd(s[..|s| - 1], q);
      CoprimeMul(Prod(s[..|s| - 1]), s[|s| - 1], q);
    }
  }

  /** With pairwise-coprime moduli the `i`-th cofactor is the product of the
      other moduli, hence coprime to the `i`-th and divisible by every other. */
  lemma CofactorFacts(ms: seq<nat>, i: nat)
    requires Positive(ms) && PairwiseCoprime(ms) && i < |ms|
    ensures Cofactor(ms, i) == Prod(Others(ms, i))
    ensures Coprime(Cofactor(ms, i), ms[i])
    ensures forall j :: 0 <= j < |ms| && j != i ==> Divides(ms[j], Cofactor(ms, i))
  {
    var o := Others(ms, i);
    ProdSplit(ms, i);
    MultipleMod(ms[i], Prod(o));
    forall k | 0 <= k < |o|
      ensures Coprime(o[k], ms[i]) && o[k] > 0
    {
      if k < i {
        assert o[k] == ms[k];
      } else {
        assert o[k] == ms[k + 1];
        CoprimeSym(ms[i], ms[k + 1]);
      }
    }
    CoprimeToProd(o, ms[i]);
    forall j | 0 <= j < |ms| && j != i
      ensures Divides(ms[j], Cofactor(ms, i))
    {
      var k := if j < i then j else j - 1;
      assert o[k] == ms[j];
      ProdDivisible(o, k);
    }
  }

  // ---------------------------------------------------------------------------
  // Correctness

  /** With pairwise-coprime moduli every cofactor is invertible, so the
      reconstruction never takes the error path. */
  lemma {:induction false} TermsDefined(ms: seq<nat>, os: seq<nat>, i: nat)
    requires Positive(ms) && PairwiseCoprime(ms) && |ms| == |os| && i <= |ms|
    ensures TermsFrom(ms, os, i).Some?
    decreases |ms| - i
  {
    if i < |ms| {
      CofactorFacts(ms, i);
      TermsDefined(ms, os, i + 1);
    }
  }

  /** Modulo the `j`-th modulus, the terms from `i` on leave `os[j]` if they
      include position `j`, and nothing otherwise. */
  lemma {:induction false} TermsResidue(ms: seq<nat>, os: seq<nat>, i: nat, j: nat)
    requires Positive(ms) && PairwiseCoprime(ms) && |ms| == |os| && i <= |ms| && j < |ms|
    requires TermsFrom(ms, os, i).Some?
    ensures TermsFrom(ms, os, i).value % ms[j] == (if i <= j then os[j] % ms[j] else 0)
    decreases |ms| - i
  {
    if i < |ms| {
      var _ := TermsStep(ms, os, i);
      TermsResidue(ms, os, i + 1, j);
      ResidueStep(ms, os, i, j);
    }
  }

  /** One step of `TermsResidue`: from the residue of the terms after `i` to
      the residue of the terms from `i`. */
  lemma ResidueStep(ms: seq<nat>, os: seq<nat>, i: nat, j: nat)
    requires Positive(ms) && PairwiseCoprime(ms) && |ms| == |os| && i < |ms| && j < |ms|
    requires TermsFrom(ms, os, i).Some? && TermsFrom(ms, os, i + 1).Some?
    requires TermsFrom(ms, os, i + 1).value % ms[j] == (if i + 1 <= j then os[j] % ms[j] else 0)
    ensures TermsFrom(ms, os, i).value % ms[j] == (if i <= j then os[j] % ms[j] else 0)
  {
    var term := TermsStep(ms, os, i);
    var rest := TermsFrom(ms, os, i + 1).value;
    TermResidue(ms, os, i, j);
    if i == j {
      AddZeroResidue(term, rest, ms[j]);
    } else {
      AddZeroResidue(rest, term, ms[j]);
    }
  }

  /** One step of the sum: the `i`-th term plus the terms after it. */
  lemma TermsStep(ms: seq<nat>, os: seq<nat>, i: nat) returns (term: int)
    requires Positive(ms) && |ms| == |os| && i < |ms| && TermsFrom(ms, os, i).Some?
    ensures ModInverse(Cofactor(ms, i), ms[i]).Some?
    ensures term == os[i] * Cofactor(ms, i) * ModInverse(Cofactor(ms, i), ms[i]).value
    ensures TermsFrom(ms, os, i + 1).Some?
    ensures TermsFrom(ms, os, i).value == term + TermsFrom(ms, os, i + 1).value
  {
    term := os[i] * Cofactor(ms, i) * ModInverse(Cofactor(ms, i), ms[i]).value;
  }

  /** The `i`-th term modulo the `j`-th modulus: its offset when `i == j`,
      nothing otherwise. */
  lemma TermResidue(ms: seq<nat>, os: seq<nat>, i: nat, j: nat)
    requires Positive(ms) && PairwiseCoprime(ms) && |ms| == |os| && i < |ms| && j < |ms|
    requires ModInverse(Cofactor(ms, i), ms[i]).Some?
    ensures var term := os[i] * Cofactor(ms, i) * ModInverse(Cofactor(ms, i), ms[i]).value;
      term % ms[j] == if i == j then os[j] % ms[j] else 0
  {
    var c := Cofactor(ms, i);
    var inv := ModInverse(c, ms[i]).value;
    if i == j {
      TermResidueOwn(os[i], c, inv, ms[i]);
    } else {
      CofactorFacts(ms, i);
      TermResidueOther(os[i], c, inv, ms[j]);
    }
  }

  /** Adding a multiple of `p` leaves the residue unchanged. */
  lemma AddZeroResidue(x: int, y: int, p: int)
    requires p > 0 && y % p == 0
    ensures (x + y) % p == x % p
  {
    ModSum(x, y, p);
    DivModUnique(x % p, p, 0, x % p);
  }

  lemma ModSum(x: int, y: int, p: int)
    requires p > 0
    ensures (x + y) % p == (x % p + y % p) % p
  {
    ModAdd(x, y, p);
    ModAdd(y, x % p, p);
  }

  /** A term's own modulus sees just its offset, as the cofactor times its
      inverse is 1 there. */
  lemma TermResidueOwn(o: int, c: int, inv: int, p: int)
    requires p > 0 && IsInverse(c, inv, p)
    ensures (o * c * inv) % p == o % p
  {
    assert o * c * inv == (c * inv) * o;
    ModMulLeft(c * inv, o, p);
    if p > 1 {
      DivModUnique(1, p, 0, 1);
    }
  }

  /** Every other modulus divides a term's cofactor, so sees nothing. */
  lemma TermResidueOther(o: int, c: int, inv: int, p: int)
    requires Divides(p, c)
    ensures (o * c * inv) % p == 0
  {
    assert o * c * inv == c * (o * inv);
    DividesMul(p, c, o * inv);
  }

  /** The sum of the terms exists exactly when every cofactor from `i` on is
      invertible modulo its own modulus. */
  lemma {:induction false} TermsSomeIff(ms: seq<nat>, os: seq<nat>, i: nat)
    requires Positive(ms) && |ms| == |os| && i <= |ms|
    ensures TermsFrom(ms, os, i).Some? <==>
      forall j :: i <= j < |ms| ==> Coprime(Cofactor(ms, j), ms[j])
    decreases |ms| - i
  {
    if i < |ms| {
      TermsSomeIff(ms, os, i + 1);
    }
  }

  /** With pairwise-coprime moduli the sum, reduced modulo the product, has
      every given residue. */
  lemma TermsReduce(ms: seq<nat>, os: seq<nat>)
    requires Positive(ms) && PairwiseCoprime(ms) && |ms| == |os|
    ensures TermsFrom(ms, os, 0).Some? && Prod(ms) > 0
    ensures forall j :: 0 <= j < |ms| ==>
      (TermsFrom(ms, os, 0).value % Prod(ms)) % ms[j] == os[j] % ms[j]
  {
    TermsDefined(ms, os, 0);
    ProdPositive(ms);
    var s := TermsFrom(ms, os, 0).value;
    forall j | 0 <= j < |ms|
      ensures (s % Prod(ms)) % ms[j] == os[j] % ms[j]
    {
      TermsResidue(ms, os, 0, j);
      ProdDivisible(ms, j);
      ModOfMod(s, Prod(ms), ms[j]);
    }
  }

  /** Pairwise-coprime divisors of `d` divide it jointly. */
  lemma {:induction false} ProdDividesCommon(ms: seq<nat>, d: int)
    requires Positive(ms) && PairwiseCoprime(ms)
    requires forall i :: 0 <= i < |ms| ==> Divides(ms[i], d)
    ensures Divides(Prod(ms), d)
  {
    if |ms| == 0 {
      DivModUnique(d, 1, d, 0);
    } else {
      var init := ms[..|ms| - 1];
      var last := ms[|ms| - 1];
      ProdDividesCommon(init, d);
      forall k | 0 <= k < |init|
        ensures Coprime(init[k], last)
      {
      }
      CoprimeToProd(init, last);
      CoprimeDividesProduct(Prod(init), last, d);
    }
  }

  /** Only one value in `[0, M)` has the given residues. */
  lemma CombineUnique(ms: seq<nat>, k: nat, k': nat)
    requires Positive(ms) && PairwiseCoprime(ms)
    requires k < Prod(ms) && k' < Prod(ms)
    requires forall i :: 0 <= i < |ms| ==> k % ms[i] == k' % ms[i]
    ensures k == k'
  {
    forall i | 0 <= i < |ms|
      ensures Divides(ms[i], k - k')
    {
      ModEqIffDivides(k, k', ms[i]);
    }
    ProdDividesCommon(ms, k - k');
    var M := Prod(ms);
    DividesIsMultiple(M, k - k');
    MulSmallIsZero(M, (k - k') / M);
  }
}

=== FILE: moduli.dfy ===
/**
  The modulus set builder: a greedy list of odd, pairwise-coprime integers
  above a lower bound whose product exceeds an upper bound. It is the basis
  the Chinese remainder reconstruction works in.
 */
module ModulusSet {
  import opened Arith

  /** Product of a list, multiplied in from the left as the builder does. */
  function Prod(s: seq<nat>): nat
  {
    if |s| == 0 then 1 else Prod(s[..|s| - 1]) * s[|s| - 1]
  }

  predicate AllOdd(s: seq<nat>) {
    forall k :: 0 <= k < |s| ==> s[k] % 2 == 1
  }

  predicate StrictlyIncreasing(s: seq<nat>) {
    forall k, l :: 0 <= k < l < |s| ==> s[k] < s[l]
  }

  predicate PairwiseCoprime(s: seq<nat>) {
    forall k, l :: 0 <= k < l < |s| ==> Coprime(s[k], s[l])
  }

  /** Every odd number skipped between two consecutive members shares a factor
      with the product of the members before it: the list is the greedy one.
      Stated gap by gap from the end; `GreedySkipped` reads it pointwise. */
  predicate Greedy(s: seq<nat>)
    decreases |s|
  {
    |s| <= 1 ||
    (&& Greedy(s[..|s| - 1])
     && forall j :: s[|s| - 2] < j < s[|s| - 1] && j % 2 == 1 ==> !Coprime(j, Prod(s[..|s| - 1])))
  }

  /** The shape the builder's list keeps throughout: first odd number above
      `n`, odd, increasing, pairwise coprime and greedy. */
  predicate WellFormed(s: seq<nat>, n: nat) {
    && |s| >= 1 && IsFirstOddAbove(s[0], n)
    && AllOdd(s) && StrictlyIncreasing(s)
    && PairwiseCoprime(s) && Greedy(s)
  }

  /** The smallest odd integer strictly greater than `n`. */
  predicate IsFirstOddAbove(x: int, n: int) {
    x % 2 == 1 && n < x <= n + 2
  }

  // ---------------------------------------------------------------------------
  // Facts about products

  lemma {:induction false} ProdPositive(s: seq<nat>)
    requires forall k :: 0 <= k < |s| ==> s[k] > 0
    ensures Prod(s) > 0
  {
    if |s| > 0 {
      ProdPositive(s[..|s| - 1]);
    }
  }

  lemma ProdAppend(s: seq<nat>, x: nat)
    ensures Prod(s + [x]) == Prod(s) * x
  {
  }

  /** Every member of a list of positive numbers divides its product. */
  lemma {:induction false} ProdDivisible(s: seq<nat>, k: nat)
    requires forall l :: 0 <= l < |s| ==> s[l] > 0
    requires k < |s|
    ensures Divides(s[k], Prod(s))
  {
    var init := s[..|s| - 1];
    if k == |s| - 1 {
      MultipleMod(s[k], Prod(init));
    } else {
      ProdDivisible(init, k);
      DividesMul(s[k], Prod(init), s[|s| - 1]);
    }
  }

  lemma OddMul(a: nat, b: nat)
    requires a % 2 == 1 && b % 2 == 1
    ensures (a * b) % 2 == 1
  {
    var qa, qb := a / 2, b / 2;
    assert a * b == 2 * (2 * qa * qb + qa + qb) + 1 by {
      assert a == 2 * qa + 1 && b == 2 * qb + 1;
    }
    DivModUnique(a * b, 2, 2 * qa * qb + qa + qb, 1);
  }

  /** Multiplying by an accepted candidate (at least 3) strictly grows the
      product, and the product stays at least the candidate. */
  lemma Growth(product: nat, i: nat)
    requires product >= 1 && i >= 3
    ensures product * i >= product + 2 && product * i >= i
  {
  }

  lemma NextOdd(x: int)
    requires x % 2 == 1
    ensures (x + 1) % 2 == 0
  {
  }

  /** An odd number is coprime to the next odd number; this bounds the
      candidates the builder can reject in a row. */
  lemma OddNeighboursCoprime(p: nat)
    requires p % 2 == 1
    ensures Coprime(p + 2, p)
  {
    if p == 1 {
      assert Gcd(3, 1) == Gcd(1, 0);
    } else {
      DivModUnique(p + 2, p, 1, 2);
      assert Gcd(p + 2, p) == Gcd(p, 2);
      assert Gcd(p, 2) == Gcd(2, 1) == Gcd(1, 0);
    }
  }

  /** A candidate coprime to the running product is coprime to each member. */
  lemma CoprimeToAll(s: seq<nat>, i: nat)
    requires forall l :: 0 <= l < |s| ==> s[l] > 0
    requires Coprime(i, Prod(s))
    ensures forall k :: 0 <= k < |s| ==> Coprime(s[k], i)
  {
    forall k | 0 <= k < |s|
      ensures Coprime(s[k], i)
    {
      ProdDivisible(s, k);
      CoprimeDivisor(i, Prod(s), s[k]);
      CoprimeSym(i, s[k]);
    }
  }

  /** Accepting a candidate that is coprime to the running product, larger
      than every member, and preceded only by rejected odd numbers keeps the
      list well formed. */
  lemma AcceptKeepsWellFormed(s: seq<nat>, n: nat, i: nat)
    requires WellFormed(s, n)
    requires i % 2 == 1 && s[|s| - 1] < i && Coprime(i, Prod(s))
    requires forall j :: s[|s| - 1] < j < i && j % 2 == 1 ==> !Coprime(j, Prod(s))
    ensures WellFormed(s + [i], n)
  {
    AppendKeepsIncreasing(s, i);
    AppendKeepsCoprime(s, i);
    AppendKeepsGreedy(s, i);
    assert AllOdd(s + [i]);
  }

  lemma AppendKeepsIncreasing(s: seq<nat>, i: nat)
    requires |s| >= 1 && StrictlyIncreasing(s) && s[|s| - 1] < i
    ensures StrictlyIncreasing(s + [i])
  {
  }

  lemma AppendKeepsCoprime(s: seq<nat>, i: nat)
    requires |s| >= 1 && AllOdd(s) && PairwiseCoprime(s) && Coprime(i, Prod(s))
    ensures PairwiseCoprime(s + [i])
  {
    CoprimeToAll(s, i);
    var t := s + [i];
    forall k, l | 0 <= k < l < |t|
      ensures Coprime(t[k], t[l])
    {
      if l == |s| {
        assert t[k] == s[k];
      }
    }
  }

  lemma AppendKeepsGreedy(s: seq<nat>, i: nat)
    requires |s| >= 1 && Greedy(s)
    requires forall j :: s[|s| - 1] < j < i && j % 2 == 1 ==> !Coprime(j, Prod(s))
    ensures Greedy(s + [i])
  {
  }

  /** The pointwise reading of `Greedy`: an odd number strictly between the
      members at `k - 1` and `k` shares a factor with the product of the first
      `k` members. */
  lemma {:induction false} GreedySkipped(s: seq<nat>, k: nat, j: nat)
    requires Greedy(s) && 0 < k < |s| && s[k - 1] < j < s[k] && j % 2 == 1
    ensures !Coprime(j, Prod(s[..k]))
    decreases |s|
  {
    var init := s[..|s| - 1];
    if k < |s| - 1 {
      assert init[k - 1] == s[k - 1] && init[k] == s[k] && init[..k] == s[..k];
      GreedySkipped(init, k, j);
    }
  }

  /** What the builder's loop keeps: the list so far, its product, and the
      next candidate, with every odd number since the last member rejected. */
  predicate BuilderState(coprimes: seq<nat>, product: nat, i: nat, n: nat) {
    && WellFormed(coprimes, n)
    && product == Prod(coprimes) && product % 2 == 1
    && i % 2 == 1 && i >= 3 && coprimes[|coprimes| - 1] < i <= product + 2
    && forall j :: coprimes[|coprimes| - 1] < j < i && j % 2 == 1 ==> !Coprime(j, product)
  }

  lemma AcceptStep(coprimes: seq<nat>, product: nat, i: nat, n: nat)
    requires BuilderState(coprimes, product, i, n) && Coprime(i, product)
    ensures BuilderState(coprimes + [i], product * i, i + 2, n)
    ensures product * i >= product + 2
    ensures (coprimes + [i])[..|coprimes|] == coprimes
  {
    AcceptKeepsWellFormed(coprimes, n, i);
    ProdAppend(coprimes, i);
    OddMul(product, i);
    Growth(product, i);
    DivModUnique(i + 2, 2, i / 2 + 1, 1);
    NextOdd(i);
    assert (coprimes + [i])[..|coprimes|] == coprimes;
  }

  lemma RejectStep(coprimes: seq<nat>, product: nat, i: nat, n: nat)
    requires BuilderState(coprimes, product, i, n) && !Coprime(i, product)
    ensures BuilderState(coprimes, product, i + 2, n)
  {
    OddNeighboursCoprime(product);
    NextOdd(product);
    assert i <= product;
    NextOdd(i);
    assert forall j :: i < j < i + 2 ==> j % 2 == 0;
    DivModUnique(i + 2, 2, i / 2 + 1, 1);
  }

  // ---------------------------------------------------------------------------
  // The builder

  /** Greedily collects odd candidates `i = first, first + 2, ...` above `n`
      that are coprime to the running product, until the product exceeds `m`. */
  method FindCoprimeNumbers(n: nat, m: int) returns (coprimes: seq<nat>)
    ensures WellFormed(coprimes, n)
    ensures forall k :: 0 <= k < |coprimes| ==> coprimes[k] > n
    ensures Prod(coprimes) > m
    ensures |coprimes| >= 2 ==> Prod(coprimes[..|coprimes| - 1]) <= m
  {
    var i: nat := n + 1 + n % 2;
    coprimes := [i];
    var product: nat := i;
    StartState(n, i);
    i := i + 2;
    while product <= m
      invariant BuilderState(coprimes, product, i, n)
      invariant |coprimes| >= 2 ==> Prod(coprimes[..|coprimes| - 1]) <= m
      decreases m + 1 - product, product + 2 - i
    {
      if Gcd(i, product) == 1 {
        AcceptStep(coprimes, product, i, n);
        coprimes := coprimes + [i];
        product := product * i;
      } else {
        RejectStep(coprimes, product, i, n);
      }
      i := i + 2;
    }
    AllAbove(coprimes, n);
  }

  /** The builder's first member alone is a well-formed list. */
  lemma StartState(n: nat, first: nat)
    requires first == n + 1 + n % 2
    ensures BuilderState([first], first, first + 2, n)
  {
    assert first % 2 == 1;
    assert Prod([first]) == first;
    assert WellFormed([first], n);
    assert forall j :: first < j < first + 2 ==> j % 2 == 0;
  }

  /** Every member of a well-formed list lies above the bound. */
  lemma AllAbove(s: seq<nat>, n: nat)
    requires WellFormed(s, n)
    ensures forall k :: 0 <= k < |s| ==> s[k] > n
  {
  }
}

=== FILE: pointers.dfy ===
/**
  Bytes and the fixed-width unsigned integers they encode, as Python's
  `int.from_bytes` reads them.
 */
module Bytes {
  import opened Arith

  type byte = x: int | 0 <= x < 256

  datatype Endian = Little | Big

  function Pow256(k: nat): nat
  {
    if k == 0 then 1 else 256 * Pow256(k - 1)
  }

  /** Unsigned little-endian value: the first byte is the least significant. */
  function DecodeLE(w: seq<byte>): (r: nat)
    ensures r < Pow256(|w|)
  {
    if |w| == 0 then 0
    else
      var rest := DecodeLE(w[1..]);
      assert w[0] + 256 * rest <= 255 + 256 * (Pow256(|w| - 1) - 1);
      w[0] + 256 * rest
  }

  /** Unsigned big-endian value: the last byte is the least significant. */
  function DecodeBE(w: seq<byte>): (r: nat)
    ensures r < Pow256(|w|)
  {
    if |w| == 0 then 0
    else
      var init := DecodeBE(w[..|w| - 1]);
      assert 256 * init + w[|w| - 1] <= 256 * (Pow256(|w| - 1) - 1) + 255;
      256 * init + w[|w| - 1]
  }

  function Decode(w: seq<byte>, e: Endian): nat
  {
    match e
    case Little => DecodeLE(w)
    case Big => DecodeBE(w)
  }

  /** The `k` little-endian bytes of `x` (Python's `x.to_bytes(k, 'little')`),
      the inverse the decoders are checked against. */
  function EncodeLE(x: nat, k: nat): (w: seq<byte>)
    ensures |w| == k
  {
    if k == 0 then [] else [x % 256] + EncodeLE(x / 256, k - 1)
  }

  function Reverse(w: seq<byte>): (r: seq<byte>)
    ensures |r| == |w|
    ensures forall k :: 0 <= k < |w| ==> r[k] == w[|w| - 1 - k]
  {
    if |w| == 0 then [] else [w[|w| - 1]] + Reverse(w[..|w| - 1])
  }

  /** Decoding undoes encoding for every value the width can hold. */
  lemma {:induction false} DecodeEncodeLE(x: nat, k: nat)
    requires x < Pow256(k)
    ensures DecodeLE(EncodeLE(x, k)) == x
  {
    if k > 0 {
      var w := EncodeLE(x, k);
      assert w[1..] == EncodeLE(x / 256, k - 1);
      DecodeEncodeLE(x / 256, k - 1);
    }
  }

  /** Encoding undoes decoding: every byte string is the encoding of its value,
      so distinct windows of one width decode to distinct values. */
  lemma {:induction false} EncodeDecodeLE(w: seq<byte>)
    ensures EncodeLE(DecodeLE(w), |w|) == w
  {
    if |w| > 0 {
      var rest := DecodeLE(w[1..]);
      DivModUnique(w[0] + 256 * rest, 256, rest, w[0]);
      EncodeDecodeLE(w[1..]);
      assert w == [w[0]] + w[1..];
    }
  }

  /** Big-endian decoding is little-endian decoding of the reversed bytes. */
  lemma {:induction false} DecodeBEIsReversedLE(w: seq<byte>)
    ensures DecodeBE(w) == DecodeLE(Reverse(w))
  {
    if |w| > 0 {
      var init := w[..|w| - 1];
      DecodeBEIsReversedLE(init);
      assert Reverse(w)[1..] == Reverse(init);
    }
  }
}

/**
  The pointer scanner: every aligned window of the blob read as an unsigned
  integer of the pointer width, collected into a set of candidate addresses.
 */
module PointerScanner {
  import opened Arith
  import opened Bytes

  /** The value of the `length`-byte window at offset `i`. */
  function ValueAt(b: seq<byte>, e: Endian, i: nat, length: nat): nat
    requires i + length <= |b|
  {
    Decode(b[i..i + length], e)
  }

  /** `i` is one of the offsets `range(0, len(b) - length + 1, align)` visits. */
  predicate IsWindowStart(b: seq<byte>, i: nat, length: nat, align: nat)
    requires align > 0
  {
    i + length <= |b| && i % align == 0
  }

  /** Scans offsets `0, align, 2*align, ...` while a whole window fits, adding
      each window's value to the result set. */
  method GetPointedAddresses(b: seq<byte>, e: Endian, length: nat, align: nat)
      returns (targets: set<nat>)
    requires align > 0
    ensures forall i: nat :: IsWindowStart(b, i, length, align) ==> ValueAt(b, e, i, length) in targets
    ensures forall x :: x in targets ==>
      exists i: nat :: IsWindowStart(b, i, length, align) && x == ValueAt(b, e, i, length)
    ensures forall x :: x in targets ==> x < Pow256(length)
    ensures |b| < length ==> targets == {}
  {
    targets := {};
    var i: nat := 0;
    while i + length <= |b|
      invariant i % align == 0
      invariant forall j: nat :: j < i && IsWindowStart(b, j, length, align) ==> ValueAt(b, e, j, length) in targets
      invariant forall x :: x in targets ==>
        exists j: nat :: j < i && IsWindowStart(b, j, length, align) && x == ValueAt(b, e, j, length)
      invariant forall x :: x in targets ==> x < Pow256(length)
      decreases |b| - i
    {
      var w := b[i..i + length];
      var value := Decode(w, e);
      assert value == ValueAt(b, e, i, length);
      assert value < Pow256(length) by {
        match e
        case Little =>
        case Big =>
      }
      targets := targets + {value};
      NoStartBetween(i, align);
      i := i + align;
    }
  }

  /** Between two consecutive multiples of `align` there is no other one. */
  lemma NoStartBetween(i: nat, align: nat)
    requires align > 0 && i % align == 0
    ensures forall j: nat :: i < j < i + align ==> j % align != 0
    ensures (i + align) % align == 0
  {
    forall j: nat | i < j < i + align
      ensures j % align != 0
    {
      DivModUnique(j, align, i / align, j - i);
    }
    DivModUnique(i + align, align, i / align + 1, 0);
  }
}

=== FILE: reconstruct.dfy ===
/**
  The offset reconstructor and the whole estimate: per-modulus best
  alignments, their Chinese remainder combination `k`, and the reading of `k`
  as a negative base (the blob sits `M - k` bytes below address 0), a
  positive base `k`, or no answer.
 */
module Reconstruct {
  import opened Arith
  import opened Wrappers
  import opened Bytes
  import opened ModulusSet
  import opened Correlation
  import opened Crt
  import opened StringLocator
  import opened PointerScanner

  /** How far below address 0 a negative base lies: at least one byte, so a
      negative estimate never denotes base 0. */
  type Distance = d: nat | d > 0 witness 1

  datatype Estimate = NegativeBase(distance: Distance) | PositiveBase(offset: nat) | NotFound

  /** The base address an estimate reports. */
  function SignedOffset(r: Estimate): int
    requires !r.NotFound?
  {
    match r
    case NegativeBase(d) => -(d as int)
    case PositiveBase(o) => o
  }

  /** A base the blob could plausibly have: below `2**(8 * width)`, and when
      negative, less than `L` bytes below 0 (the blob still reaches address 0). */
  predicate InWindow(base: int, L: nat, width: nat) {
    (base < 0 ==> -base < L) && base < Pow256(width)
  }

  predicate Represents(base: int, M: nat, k: nat)
    requires M > 0
  {
    base % M == k
  }

  /** The main block's reading of `k < M`: a negative base when `M - k` is
      shorter than the blob, else a positive base when `k` fits in the pointer
      width (`2**(8 * width)`), else not found. Whatever it reports is
      congruent to `k` modulo `M`. When `M` exceeds `2**(8 * width) + L`, as
      the modulus builder guarantees, the window holds at most one
      representative of `k`: the classification reports exactly that one, and
      not found when there is none, so the order of the two tests does not
      matter. */
  function Classify(M: nat, k: nat, L: nat, width: nat): (r: Estimate)
    requires k < M
    ensures r.NegativeBase? <==> M - k < L
    ensures r.NegativeBase? ==> r.distance == M - k
    ensures !r.NotFound? ==> Represents(SignedOffset(r), M, k)
    ensures M > Pow256(width) + L && !r.NotFound? ==> InWindow(SignedOffset(r), L, width)
    ensures M > Pow256(width) + L ==>
      forall base :: InWindow(base, L, width) && Represents(base, M, k) ==>
        !r.NotFound? && SignedOffset(r) == base
  {
    var negative: Distance := M - k;
    Representatives(M, k);
    var r := if negative < L then NegativeBase(negative)
      else if k < Pow256(width) then PositiveBase(k)
      else NotFound;
    assert M > Pow256(width) + L ==>
      forall base :: InWindow(base, L, width) && Represents(base, M, k) ==>
        base == if base < 0 then k - M else k
    by {
      if M > Pow256(width) + L {
        forall base | InWindow(base, L, width) && Represents(base, M, k) {
          WindowRepresentative(M, k, L, width, base);
        }
      }
    }
    r
  }

  /** `k` and `k - M` both represent `k < M`. */
  lemma Representatives(M: nat, k: nat)
    requires k < M
    ensures Represents(k, M, k) && Represents(k - M, M, k)
  {
    DivModUnique(k, M, 0, k);
    DivModUnique(k - M, M, -1, k);
  }

  /** A representative of `k` in the window is `k` itself or `k - M`. */
  lemma WindowRepresentative(M: nat, k: nat, L: nat, width: nat, base: int)
    requires k < M && M > Pow256(width) + L
    requires InWindow(base, L, width) && Represents(base, M, k)
    ensures base == if base < 0 then k - M else k
  {
    if base >= 0 {
      DivModUnique(base, M, 0, base);
    } else {
      DivModUnique(base, M, -1, base + M);
    }
  }

  // ---------------------------------------------------------------------------
  // find_max_overlap

  /** `off` is the first residue modulo `p` with the most (pointer, string)
      pairs at that difference: what `numpy.argmax` in allyourbase.py picks. */
  ghost predicate IsBestAlignment(A: set<nat>, B: set<nat>, p: nat, off: nat)
    requires p > 0
  {
    && off < p
    && (forall k :: 0 <= k < p ==> |PairsAt(A, B, p, k)| <= |PairsAt(A, B, p, off)|)
    && (forall k :: 0 <= k < off ==> |PairsAt(A, B, p, k)| < |PairsAt(A, B, p, off)|)
  }

  /** The best alignment modulo each modulus, combined by the Chinese
      remainder theorem; `None` is the error `pow` raises on a cofactor that
      has no inverse, which pairwise-coprime moduli rule out. */
  method FindMaxOverlap(A: set<nat>, B: set<nat>, moduli: seq<nat>)
      returns (offsets: seq<nat>, k: Option<nat>)
    requires Positive(moduli)
    ensures |offsets| == |moduli|
    ensures forall i :: 0 <= i < |moduli| ==> IsBestAlignment(A, B, moduli[i], offsets[i])
    ensures k == Combine(moduli, offsets)
    ensures PairwiseCoprime(moduli) ==> k.Some? && k.value < Prod(moduli)
    ensures PairwiseCoprime(moduli) ==>
      forall i :: 0 <= i < |moduli| ==> k.value % moduli[i] == offsets[i]
  {
    offsets := [];
    var i := 0;
    while i < |moduli|
      invariant i <= |moduli| && |offsets| == i
      invariant forall j :: 0 <= j < i ==> IsBestAlignment(A, B, moduli[j], offsets[j])
    {
      var off := LocalOffset(A, B, moduli[i]);
      offsets := offsets + [off];
      i := i + 1;
    }
    k := Combine(moduli, offsets);
    if PairwiseCoprime(moduli) {
      forall j | 0 <= j < |moduli|
        ensures offsets[j] % moduli[j] == offsets[j]
      {
        DivModUnique(offsets[j], moduli[j], 0, offsets[j]);
      }
    }
  }

  // ---------------------------------------------------------------------------
  // The whole estimate

  /** `base` agrees with every per-modulus alignment. */
  predicate Consistent(base: int, moduli: seq<nat>, offsets: seq<nat>)
    requires Positive(moduli) && |moduli| == |offsets|
  {
    forall i :: 0 <= i < |moduli| ==> base % moduli[i] == offsets[i]
  }

  datatype Analysis = Analysis(
    strings: set<nat>,
    pointers: set<nat>,
    moduli: seq<nat>,
    offsets: seq<nat>,
    estimate: Estimate)

  /** The main block: strings and pointers from the blob, moduli above
      `lower` whose product exceeds `2**(8 * width) + len(b)`, best
      alignments, their combination, and its reading as a base address. */
  method EstimateBase(b: seq<byte>, n: nat, width: nat, e: Endian, align: nat, lower: nat)
      returns (a: Analysis)
    requires align > 0
    ensures a.strings == GetStringAddresses(b, n)
    ensures forall i: nat :: IsWindowStart(b, i, width, align) ==> ValueAt(b, e, i, width) in a.pointers
    ensures forall x :: x in a.pointers ==>
      exists i: nat :: IsWindowStart(b, i, width, align) && x == ValueAt(b, e, i, width)
    ensures forall x :: x in a.pointers ==> x < Pow256(width)
    ensures WellFormed(a.moduli, lower) && Prod(a.moduli) > Pow256(width) + |b|
    ensures |a.moduli| >= 2 ==> Prod(a.moduli[..|a.moduli| - 1]) <= Pow256(width) + |b|
    ensures Positive(a.moduli) && |a.offsets| == |a.moduli|
    ensures forall i :: 0 <= i < |a.moduli| ==>
      IsBestAlignment(a.pointers, a.strings, a.moduli[i], a.offsets[i])
    ensures !a.estimate.NotFound? ==>
      && InWindow(SignedOffset(a.estimate), |b|, width)
      && Consistent(SignedOffset(a.estimate), a.moduli, a.offsets)
    ensures a.estimate.NotFound? <==>
      !exists base :: InWindow(base, |b|, width) && Consistent(base, a.moduli, a.offsets)
    ensures forall base :: InWindow(base, |b|, width) && Consistent(base, a.moduli, a.offsets) ==>
      !a.estimate.NotFound? && SignedOffset(a.estimate) == base
    ensures !a.estimate.NotFound? ==> (a.estimate.NegativeBase? <==> SignedOffset(a.estimate) < 0)
  {
    var strings := GetStringAddresses(b, n);
    var pointers := GetPointedAddresses(b, e, width, align);
    var moduli := FindCoprimeNumbers(lower, Pow256(width) + |b|);
    assert Positive(moduli);
    var offsets, k := FindMaxOverlap(pointers, strings, moduli);
    var M := Prod(moduli);
    var estimate := Classify(M, k.value, |b|, width);
    a := Analysis(strings, pointers, moduli, offsets, estimate);
    EstimateMeaning(moduli, offsets, k.value, |b|, width);
  }

  /** The reported base is consistent with every alignment, and not found
      means no base in the window is. */
  lemma EstimateMeaning(moduli: seq<nat>, offsets: seq<nat>, k: nat, L: nat, width: nat)
    requires Positive(moduli) && PairwiseCoprime(moduli) && |moduli| == |offsets|
    requires k < Prod(moduli) && Prod(moduli) > Pow256(width) + L
    requires forall i :: 0 <= i < |moduli| ==> k % moduli[i] == offsets[i]
    ensures var r := Classify(Prod(moduli), k, L, width);
      && (!r.NotFound? ==> InWindow(SignedOffset(r), L, width) && Consistent(SignedOffset(r), moduli, offsets))
      && (r.NotFound? <==> !exists base :: InWindow(base, L, width) && Consistent(base, moduli, offsets))
      && (forall base :: InWindow(base, L, width) && Consistent(base, moduli, offsets) ==>
            !r.NotFound? && SignedOffset(r) == base)
  {
    var M := Prod(moduli);
    var r := Classify(M, k, L, width);
    if !r.NotFound? {
      RepresentativeIsConsistent(moduli, offsets, k, SignedOffset(r));
    }
    forall base | InWindow(base, L, width) && Consistent(base, moduli, offsets)
      ensures !r.NotFound? && SignedOffset(r) == base
    {
      ConsistentIsRepresentative(moduli, offsets, k, base);
    }
  }

  /** A value congruent to `k` modulo the product agrees with every alignment. */
  lemma RepresentativeIsConsistent(moduli: seq<nat>, offsets: seq<nat>, k: nat, base: int)
    requires Positive(moduli) && |moduli| == |offsets| && k < Prod(moduli)
    requires forall i :: 0 <= i < |moduli| ==> k % moduli[i] == offsets[i]
    requires Represents(base, Prod(moduli), k)
    ensures Consistent(base, moduli, offsets)
  {
    var M := Prod(moduli);
    forall i | 0 <= i < |moduli|
      ensures base % moduli[i] == offsets[i]
    {
      ProdDivisible(moduli, i);
      ModOfMod(base, M, moduli[i]);
    }
  }

  /** Conversely, with pairwise-coprime moduli a value that agrees with every
      alignment is congruent to `k` modulo the product. */
  lemma ConsistentIsRepresentative(moduli: seq<nat>, offsets: seq<nat>, k: nat, base: int)
    requires Positive(moduli) && PairwiseCoprime(moduli) && |moduli| == |offsets| && k < Prod(moduli)
    requires forall i :: 0 <= i < |moduli| ==> k % moduli[i] == offsets[i]
    requires Consistent(base, moduli, offsets)
    ensures Represents(base, Prod(moduli), k)
  {
    var M := Prod(moduli);
    ProdPositive(moduli);
    forall i | 0 <= i < |moduli|
      ensures (base % M) % moduli[i] == k % moduli[i]
    {
      ProdDivisible(moduli, i);
      ModOfMod(base, M, moduli[i]);
    }
    CombineUnique(moduli, base % M, k);
  }
}

=== FILE: strings.dfy ===
/**
  The string locator: offsets of NUL-terminated runs of at least `n` text
  units. A unit is one printable ASCII byte (or tab, LF, CR, FF), or a two-,
  three- or four-byte sequence shaped like UTF-8 (a lead byte followed by
  continuation bytes; overlong forms and surrogates are let through).

  allyourbase.py finds these with the regular expression `(?:unit){n,}\x00` under
  `re.finditer`. Here the unit alternation is stated as written (`IsUnit`) and
  matched by an explicit scanner that reads a unit's length off its lead byte
  (`UnitLength`); the two are proved to agree, and the scan keeps finditer's
  leftmost, non-overlapping discipline.
 */
module StringLocator {
  import opened Bytes
  import opened Wrappers

  predicate IsTextByte(c: byte) {
    c == 0x09 || c == 0x0A || c == 0x0C || c == 0x0D || 0x20 <= c <= 0x7E
  }

  predicate IsLead2(c: byte) { 0xC2 <= c <= 0xDF }
  predicate IsLead3(c: byte) { 0xE0 <= c <= 0xEF }
  predicate IsLead4(c: byte) { 0xF0 <= c <= 0xF4 }
  predicate IsCont(c: byte) { 0x80 <= c <= 0xBF }

  /** `b[i..i+u]` matches one alternative of the unit class, read as the four
      alternatives of the pattern, with no regard to which one applies. */
  predicate IsUnit(b: seq<byte>, i: nat, u: nat) {
    && i + u <= |b|
    && (|| (u == 1 && IsTextByte(b[i]))
        || (u == 2 && IsLead2(b[i]) && IsCont(b[i + 1]))
        || (u == 3 && IsLead3(b[i]) && IsCont(b[i + 1]) && IsCont(b[i + 2]))
        || (u == 4 && IsLead4(b[i]) && IsCont(b[i + 1]) && IsCont(b[i + 2]) && IsCont(b[i + 3])))
  }

  /** The number of bytes a lead byte announces: 1 for a text byte, 2 to 4 for
      UTF-8 lead bytes, 0 for anything else (NUL, continuation bytes, C0, C1,
      F5 to FF). */
  function Announced(c: byte): nat
  {
    if IsTextByte(c) then 1
    else if IsLead2(c) then 2
    else if IsLead3(c) then 3
    else if IsLead4(c) then 4
    else 0
  }

  /** The deterministic scanner step: the length of the unit starting at `i`,
      or 0 when no unit starts there. The byte classes are disjoint, so this
      is the one and only unit the pattern could match at `i`. */
  function UnitLength(b: seq<byte>, i: nat): (u: nat)
    ensures u <= 4
    ensures u > 0 ==> IsUnit(b, i, u)
    ensures forall v :: IsUnit(b, i, v) ==> v == u
  {
    if i >= |b| then 0
    else
      var need := Announced(b[i]);
      if need > 0 && i + need <= |b| && forall k :: i < k < i + need ==> IsCont(b[k])
      then need
      else 0
  }

  /** `b[s..e]` splits into exactly `k` units: the pattern's `(?:unit){k}`. */
  ghost predicate Units(b: seq<byte>, s: nat, e: nat, k: nat)
    decreases k
  {
    if k == 0 then s == e
    else exists u :: 1 <= u <= 4 && IsUnit(b, s, u) && Units(b, s + u, e, k - 1)
  }

  /** The pattern `(?:unit){n,}\x00` matches `b[s..e+1]`. */
  ghost predicate PatternMatches(b: seq<byte>, n: nat, s: nat, e: nat) {
    e < |b| && b[e] == 0 && exists k :: n <= k && Units(b, s, e, k)
  }

  datatype Run = Run(units: nat, end: nat)

  /** The maximal run of units from `i`: how many, and where it stops. */
  function MaxRun(b: seq<byte>, i: nat): (r: Run)
    requires i <= |b|
    ensures i + r.units <= r.end <= |b|
    ensures Units(b, i, r.end, r.units)
    ensures UnitLength(b, r.end) == 0
    decreases |b| - i
  {
    var u := UnitLength(b, i);
    if u == 0 then Run(0, i)
    else
      var rest := MaxRun(b, i + u);
      assert Units(b, i, rest.end, rest.units + 1) by {
        assert IsUnit(b, i, u) && Units(b, i + u, rest.end, rest.units);
      }
      Run(rest.units + 1, rest.end)
  }

  /** Where the match starting at `s` ends (one past its NUL), if the pattern
      matches there: the maximal run must be long enough and stop at a NUL. */
  function MatchEnd(b: seq<byte>, n: nat, s: nat): (r: Option<nat>)
    requires s <= |b|
    ensures r.Some? ==> s + n < r.value <= |b|
    ensures r.Some? ==> PatternMatches(b, n, s, r.value - 1)
  {
    var run := MaxRun(b, s);
    if run.units >= n && run.end < |b| && b[run.end] == 0 then Some(run.end + 1) else None
  }

  /** Any split into units that stops where no unit starts is the maximal run. */
  lemma {:induction false} UnitsStoppingAreMaxRun(b: seq<byte>, s: nat, e: nat, k: nat)
    requires s <= |b|
    requires Units(b, s, e, k) && UnitLength(b, e) == 0
    ensures MaxRun(b, s) == Run(k, e)
    decreases k
  {
    if k > 0 {
      var u :| 1 <= u <= 4 && IsUnit(b, s, u) && Units(b, s + u, e, k - 1);
      UnitsStoppingAreMaxRun(b, s + u, e, k - 1);
      MaxRunStep(b, s, u);
    }
  }

  /** One unit of length `u` at `s`, then the maximal run after it. */
  lemma MaxRunStep(b: seq<byte>, s: nat, u: nat)
    requires s <= |b| && 1 <= u && IsUnit(b, s, u)
    ensures MaxRun(b, s) == Run(MaxRun(b, s + u).units + 1, MaxRun(b, s + u).end)
  {
    assert UnitLength(b, s) == u;
  }

  /** The scanner and the pattern agree: the scanner reports a match ending at
      `e + 1` exactly when the pattern matches `b[s..e+1]`. Backtracking cannot
      find a shorter match, since every earlier unit boundary starts a unit and
      so is not a NUL. */
  lemma MatchEndIffPattern(b: seq<byte>, n: nat, s: nat, e: nat)
    requires s <= |b|
    ensures MatchEnd(b, n, s) == Some(e + 1) <==> PatternMatches(b, n, s, e)
  {
    var run := MaxRun(b, s);
    if PatternMatches(b, n, s, e) {
      var k :| n <= k && Units(b, s, e, k);
      assert UnitLength(b, e) == 0 by {
        assert !IsUnit(b, e, Announced(b[e]));
      }
      UnitsStoppingAreMaxRun(b, s, e, k);
    }
  }

  /** Every start in `r` lies at or after `s` and has a match. */
  ghost predicate Reported(b: seq<byte>, n: nat, s: nat, r: set<nat>) {
    forall x :: x in r ==> s <= x < |b| && MatchEnd(b, n, x).Some?
  }

  /** The matches at the starts in `r` do not overlap. */
  ghost predicate Disjoint(b: seq<byte>, n: nat, s: nat, r: set<nat>)
    requires Reported(b, n, s, r)
  {
    forall x, y :: x in r && y in r && x < y ==> MatchEnd(b, n, x).value <= y
  }

  /** A start at or after `s` with a match that is not in `r` lies inside a
      match at an earlier start in `r`: leftmost matches win. */
  ghost predicate Leftmost(b: seq<byte>, n: nat, s: nat, r: set<nat>)
    requires Reported(b, n, s, r)
  {
    forall p :: s <= p < |b| && MatchEnd(b, n, p).Some? && p !in r ==>
      exists q :: q in r && q < p < MatchEnd(b, n, q).value
  }

  /** The `re.finditer` discipline for the starts `r` found from `s`. */
  ghost predicate FindIter(b: seq<byte>, n: nat, s: nat, r: set<nat>) {
    Reported(b, n, s, r) && Disjoint(b, n, s, r) && Leftmost(b, n, s, r)
  }

  /** `re.finditer` from position `s`: try each start in turn; after a match,
      resume just past its NUL. */
  function ScanFrom(b: seq<byte>, n: nat, s: nat): (r: set<nat>)
    requires s <= |b|
    ensures FindIter(b, n, s, r)
    decreases |b| - s
  {
    if s == |b| then {}
    else
      var m := MatchEnd(b, n, s);
      if m.Some? then
        var rest := ScanFrom(b, n, m.value);
        ScanTake(b, n, s, rest);
        {s} + rest
      else
        var rest := ScanFrom(b, n, s + 1);
        ScanSkip(b, n, s, rest);
        rest
  }

  /** A match at `s` is reported, and the scan resumes past its end. */
  lemma ScanTake(b: seq<byte>, n: nat, s: nat, rest: set<nat>)
    requires s < |b| && MatchEnd(b, n, s).Some?
    requires FindIter(b, n, MatchEnd(b, n, s).value, rest)
    ensures FindIter(b, n, s, {s} + rest)
  {
    TakeReported(b, n, s, rest);
    TakeDisjoint(b, n, s, rest);
    TakeLeftmost(b, n, s, rest);
  }

  lemma TakeReported(b: seq<byte>, n: nat, s: nat, rest: set<nat>)
    requires s < |b| && MatchEnd(b, n, s).Some?
    requires Reported(b, n, MatchEnd(b, n, s).value, rest)
    ensures Reported(b, n, s, {s} + rest)
  {
  }

  lemma TakeDisjoint(b: seq<byte>, n: nat, s: nat, rest: set<nat>)
    requires s < |b| && MatchEnd(b, n, s).Some?
    requires Reported(b, n, MatchEnd(b, n, s).value, rest)
    requires Disjoint(b, n, MatchEnd(b, n, s).value, rest)
    ensures Reported(b, n, s, {s} + rest)
    ensures Disjoint(b, n, s, {s} + rest)
  {
    TakeReported(b, n, s, rest);
  }

  lemma TakeLeftmost(b: seq<byte>, n: nat, s: nat, rest: set<nat>)
    requires s < |b| && MatchEnd(b, n, s).Some?
    requires Reported(b, n, MatchEnd(b, n, s).value, rest)
    requires Leftmost(b, n, MatchEnd(b, n, s).value, rest)
    ensures Reported(b, n, s, {s} + rest)
    ensures Leftmost(b, n, s, {s} + rest)
  {
    TakeReported(b, n, s, rest);
    var e := MatchEnd(b, n, s).value;
    var r := {s} + rest;
    forall p | s <= p < |b| && MatchEnd(b, n, p).Some? && p !in r
      ensures exists q :: q in r && q < p < MatchEnd(b, n, q).value
    {
      if p < e {
        assert s in r && s < p < MatchEnd(b, n, s).value;
      } else {
        var q :| q in rest && q < p < MatchEnd(b, n, q).value;
        assert q in r;
      }
    }
  }

  /** No match at `s`: the scan moves on by one byte. */
  lemma ScanSkip(b: seq<byte>, n: nat, s: nat, rest: set<nat>)
    requires s < |b| && MatchEnd(b, n, s).None?
    requires FindIter(b, n, s + 1, rest)
    ensures FindIter(b, n, s, rest)
  {
  }

  /** `get_string_addresses`: the start offsets of all matches. */
  function GetStringAddresses(b: seq<byte>, n: nat): (r: set<nat>)
    ensures forall s :: s in r ==> s + n < |b|
    ensures forall s :: s in r ==> exists e :: PatternMatches(b, n, s, e)
    ensures |b| <= n ==> r == {}
    ensures FindIter(b, n, 0, r)
  {
    var r := ScanFrom(b, n, 0);
    assert forall s :: s in r ==> PatternMatches(b, n, s, MatchEnd(b, n, s).value - 1) by {
      forall s | s in r
        ensures PatternMatches(b, n, s, MatchEnd(b, n, s).value - 1)
      {
        MatchEndIffPattern(b, n, s, MatchEnd(b, n, s).value - 1);
      }
    }
    r
  }
}

=== FILE: wrappers.dfy ===
/** The optional value that stands for the error `pow` raises in allyourbase.py. */
module Wrappers {

  datatype Option<+T> = None | Some(value: T)
}
